=== FILE: README.md ===
# Flutter service worker: cache reconciliation model

A Dafny model of the logic in `docs/flutter_service_worker.js`, the service worker that a Flutter web build ships. The worker keeps three caches:

- `flutter-temp-cache` (temp), filled with the application shell (`CORE`) on install;
- `flutter-app-cache` (content), which requests are served from;
- `flutter-app-manifest`, holding the `RESOURCES` manifest the last activation saved.

On `activate` it reconciles content with the new manifest, or purges all three caches if any step fails. On `fetch` it answers listed GET requests: online first for the root document and cache first for everything else. On `message` it honours `skipWaiting` and `downloadOffline`.

The model is functional:

- Caches are immutable maps from the full request URL to a response. A response carries its status, so `ok` is "status in 200..299".
- The manifest store is an `Option<Manifest>`.
- Every handler is a pure function, or a method with loops, from the cache state and an oracle to the new state and a reply.
  - The network is a total function from URL to fetch outcome: a response or a rejection.
  - Storage faults during `activate` are a predicate over the storage operations, saying which ones reject.
- The page origin (`self.location.origin`) is a parameter. The bare `origin` read by `downloadOffline` (line 208) is the worker global's own origin, so it is the same parameter.

Modules, in dependency order:

- `Text`: `indexOf`, `split(..)[0]` and `substring` on strings.
- `Model`: URLs, keys, manifests, responses, caches and the storage triple.
- `Keys`: the two URL-to-key normalisations and their laws.
  - `RequestKey` is the fetch handler's normalisation. It cuts at the first `?v=` and canonicalises the root.
  - `EntryKey` is the normalisation of the `activate` and `downloadOffline` loops. It only maps the empty path to `/`.
- `CacheOps`: the Cache API's all-or-nothing `addAll`.
- `Provisioning`: the `install` handler.
- `Activation`: reconciliation, in two forms.
  - `Reconcile` is the declarative definition.
  - `Activate` is the step-by-step handler with injected storage faults.
- `Router`: the `fetch` handler, `CacheFirst` and `OnlineFirst`.
- `Messages`: the `message` handler and `downloadOffline`.
- `Build`: the shipped `RESOURCES` keys and `CORE`.
- `Lifecycle`: install followed by activation, and the shipped constants run through both.
- `PropertyLookups`: the manifest and content lookups as JavaScript evaluates them (see Findings).

Three behaviours of the code are easy to miss:

- **Origin check.** The key is `url.substring(origin.length + 1)` and is not checked against the origin. So a URL on another origin of the same length gets the same key as the worker's own, and it is intercepted when that key is listed (`Keys.OtherOriginSameLengthAliases`).
- **Versioned requests.** A request for `k?v=N` is *routed* like one for `k`. The cache is still looked up and filled under the full URL, so a stored `k` does not answer `k?v=N` (`Router.VersionedRequestMissesPlainEntry`). An entry stored under `k?v=N` is dropped on the next upgrade (`Activation.VersionedEntryEvicted`).
- **Install is all or nothing.** Install stores the shell through `addAll`, so either every shell response is stored or none is.

## Model

| member | source | states |
|---|---|---|
| `Text.IndexOf` | docs/flutter_service_worker.js:159 | -1 exactly when the marker does not occur; otherwise an occurrence with none before it |
| `Text.BeforeFirst` | docs/flutter_service_worker.js:160 | the result is a prefix of the input, free of the marker, that ends at the first occurrence or at the end of the input |
| `Text.BeforeFirstUnique` | docs/flutter_service_worker.js:160 | any prefix with those three properties is the result of the cut |
| `Keys.RequestKey` | docs/flutter_service_worker.js:156-164 | the key is never empty and never contains `?v=`; root addresses give `/`; otherwise the key is the path cut at the first `?v=` |
| `Keys.VersionQueryIgnored` | docs/flutter_service_worker.js:157-164 | `origin/p?v=n` and `origin/p` have the same key: `p`, or `/` when `p` is empty or starts with `#` |
| `Keys.RootAddresses` | docs/flutter_service_worker.js:162-164 | the bare origin, `origin/`, `origin/#...` and `origin/?v=...` all have the key `/` |
| `Keys.AddressesRoot` | docs/flutter_service_worker.js:162 | the bare origin, `origin/` and `origin/#...` address the root; a URL on the origin whose path is non-empty and starts with neither `#` nor `?` does not |
| `Keys.PathOf` | docs/flutter_service_worker.js:157 | the path is as long as the URL minus the origin and its slash, or empty; for a URL on the origin it is exactly what follows `origin/` |
| `Keys.EntryKey` | docs/flutter_service_worker.js:117-121 | the entry key is never empty: it is the path, or `/` when the path is empty |
| `Keys.ResolveUrl` | docs/flutter_service_worker.js:219 | a key's URL starts with `origin/`, and its path is the key without a leading `/` |
| `Keys.VersionQueryKeptInEntryKey` | docs/flutter_service_worker.js:117-121 | the entry key of `origin/p?v=n` is `p?v=n`, which contains the marker, so it differs from every request key |
| `Keys.ResolveRoundTrip` | docs/flutter_service_worker.js:207-211 | a well-formed key (the root, or a relative path of characters the URL parser keeps, without dot segments) gives its URL, which gives the key back both as an entry key and as a request key |
| `Keys.OtherOriginSameLengthAliases` | docs/flutter_service_worker.js:156-157 | a URL on another origin of the same length gets the same request key as the same path on the worker's origin |
| `CacheOps.FetchAll` | docs/flutter_service_worker.js:85-86 | succeeds exactly when every fetch resolves ok, and then holds every listed URL with its fetched response |
| `CacheOps.AddAll` | docs/flutter_service_worker.js:219 | all or nothing: succeeds exactly when every URL fetches ok, and then adds each fetched response over the old cache |
| `Provisioning.Install` | docs/flutter_service_worker.js:81-89 | succeeds exactly when every shell URL fetches ok; temp then gains every shell URL with its response and keeps its other entries; on failure nothing is stored |
| `Provisioning.InstalledEntriesListed` | docs/flutter_service_worker.js:84-86 | when the shell keys are listed and well formed, every temp entry the install creates has a listed entry key |
| `Activation.Reconcile` | docs/flutter_service_worker.js:93-140 | temp is emptied and the manifest saved; without a saved manifest content becomes temp; otherwise content holds temp plus the retained entries, with temp's value winning |
| `Activation.Retained` | docs/flutter_service_worker.js:125 | an entry is retained only when the new manifest lists its entry key |
| `Activation.CopyTemp` | docs/flutter_service_worker.js:131-134 | the copy loop succeeds exactly when no read or put of a temp entry rejects, and then yields content overwritten by temp |
| `Activation.EvictStale` | docs/flutter_service_worker.js:117-128 | the eviction loop succeeds exactly when no delete of a non-retained entry rejects, and then leaves exactly the retained entries |
| `Activation.Activate` | docs/flutter_service_worker.js:93-147 | claims the clients exactly when no operation of the run rejects, and then leaves the reconciled state; any rejection deletes all three caches |
| `Activation.ActivateOps` | docs/flutter_service_worker.js:96-137 | the run opens the three caches, reads and saves the manifest and deletes temp; it reads and puts exactly the temp entries; it deletes exactly the non-retained content entries, and only when a manifest was saved; otherwise it deletes the content cache; it parses the manifest exactly when one was saved |
| `Activation.ChangedEntryReplacedOrDropped` | docs/flutter_service_worker.js:122-134 | an entry whose key was removed from the manifest or re-fingerprinted survives only as temp's fresh copy |
| `Activation.UnchangedEntryCarriedForward` | docs/flutter_service_worker.js:122-128 | an entry listed with an unchanged fingerprint is carried forward as it was |
| `Activation.SameManifestKeepsListed` | docs/flutter_service_worker.js:125-134 | reconciling with the same manifest keeps exactly temp and the listed content entries |
| `Activation.ReconcileIdempotent` | docs/flutter_service_worker.js:115-137 | when temp's keys are listed, reconciling twice equals reconciling once |
| `Activation.VersionedEntryEvicted` | docs/flutter_service_worker.js:117-127 | an entry stored under `origin/p?v=n` never survives an upgrade unless temp holds it |
| `Activation.SettledAbsorbsTemp` | docs/flutter_service_worker.js:117-134 | reconciling a settled state, whose entries are all listed, with a temp cache it already holds gives that state back |
| `Router.CacheFirst` | docs/flutter_service_worker.js:174-187 | the network is used exactly on a miss; a hit is served unchanged; existing entries are never overwritten; only the request URL is added, and only with an ok response; a failure means both the cache and the network had no answer |
| `Router.OnlineFirst` | docs/flutter_service_worker.js:223-241 | always fetches; a fetched response is stored whatever its status and served; on rejection the stored entry is served, otherwise the rejection is passed on, and the cache is unchanged |
| `Router.Choose` | docs/flutter_service_worker.js:153-173 | declines exactly non-GET requests and unlisted keys; online first exactly for a listed root; cache first only for other keys |
| `Router.HandleFetch` | docs/flutter_service_worker.js:152-187 | declines exactly non-GET requests and unlisted keys, and then touches neither the cache nor the network; a listed root always uses the network; any other listed key uses it exactly when its URL is not stored; without the network the stored response is served and nothing changes; a fetched response is what is served; a failure means no stored entry and a rejected fetch; every other entry keeps its response, and a new entry for the request URL holds the fetched response; a fetched root is stored whatever its status; when the fetch rejects, a stored entry is what is served; a new cache-first entry is always ok |
| `Router.StoredEntryServedOffline` | docs/flutter_service_worker.js:176-179 | a cache-first request for a stored URL gets the same answer under every network, without using it |
| `Router.RepeatServedFromCache` | docs/flutter_service_worker.js:179-183 | after a cache-first fetch resolved ok, repeating the request serves that response offline |
| `Router.RootRequestsGoOnlineFirst` | docs/flutter_service_worker.js:162-173 | the bare origin, `origin/` and `origin/#...` go online first when `/` is listed |
| `Router.VersionedRequestRoutedAlike` | docs/flutter_service_worker.js:159-173 | `origin/p?v=n` is routed exactly like `origin/p` |
| `Router.VersionedRequestMissesPlainEntry` | docs/flutter_service_worker.js:176 | a stored `origin/p` does not answer `origin/p?v=n`, which goes to the network |
| `Router.OnlineFirstFallsBackToLastFetch` | docs/flutter_service_worker.js:225-235 | once the root document was fetched, a later offline request serves that same response |
| `Messages.Pending` | docs/flutter_service_worker.js:214-218 | a key is requested exactly when it is in the key order and not present |
| `Messages.PresentKeys` | docs/flutter_service_worker.js:204-213 | `currentContent` holds the entry key of every stored URL, and nothing else |
| `Messages.DownloadOffline` | docs/flutter_service_worker.js:203-220 | succeeds exactly when every key of the order that is not present fetches ok; then adds exactly the URLs of the missing keys, each with its ok fetched response, keeps every other entry with its response, and makes every well-formed key of the order present |
| `Messages.HandleMessage` | docs/flutter_service_worker.js:189-200 | `skipWaiting` is requested exactly for the `'skipWaiting'` message; anything but `'downloadOffline'` leaves the cache alone; no entry is ever removed; only URLs of the order's keys are added or changed, and a changed or added entry holds that URL's ok fetched response; `'downloadOffline'` either leaves the cache as it was or makes every well-formed key present, and does the latter whenever every missing key fetches ok; when any missing key's fetch is not ok, `'downloadOffline'` leaves the cache as it was |
| `Messages.PendingDistributes` | docs/flutter_service_worker.js:214-218 | the pending list of a concatenation is the concatenation of the pending lists, so key order is kept |
| `Messages.PendingIsMissingKeys` | docs/flutter_service_worker.js:203-218 | in the manifest's own key order, the requested keys are exactly the listed keys not present, each once |
| `Messages.NoDuplicatesKept` | docs/flutter_service_worker.js:214-218 | a key order without repeats yields a pending list without repeats |
| `Messages.DownloadOfflineCompletes` | docs/flutter_service_worker.js:203-220 | after a successful download every listed key is present in content |
| `Messages.DownloadOfflineIdempotent` | docs/flutter_service_worker.js:203-220 | a second download after a successful one requests nothing and changes nothing, under any network |
| `Messages.NothingPendingWhenAllPresent` | docs/flutter_service_worker.js:214-218 | when every key is present the pending list is empty |
| `Build.CoreIsListed` | docs/flutter_service_worker.js:74-78 | every `CORE` key is a `RESOURCES` key and well formed, and `/` is listed |
| `Lifecycle.FirstActivationServesShell` | docs/flutter_service_worker.js:101-113 | after install and a first activation, content holds exactly the shell URLs with their fetched responses, temp is empty and the manifest is saved |
| `Lifecycle.ReactivationChangesNothing` | docs/flutter_service_worker.js:115-137 | after install and activation, activating again with the same manifest changes nothing |
| `Lifecycle.ReinstallReactivationChangesNothing` | docs/flutter_service_worker.js:81-137 | after install and activation, a second install from the same network and activation with the same manifest leaves every cache as it was |
| `Lifecycle.ShippedReactivationChangesNothing` | docs/flutter_service_worker.js:74-78 | for any manifest listing the shipped keys, activating again after installing the shipped shell changes nothing |
| `Lifecycle.UpgradeExample` | docs/flutter_service_worker.js:117-134 | a worked upgrade where `a` is unchanged, `b` is removed and the root is unchanged keeps `a` and the root and drops `b` |
| `PropertyLookups.ConstructorKey` | docs/flutter_service_worker.js:157-164 | `origin/constructor` has the request key and the entry key `constructor` |
| `PropertyLookups.PrototypeKeyIntercepted` | docs/flutter_service_worker.js:167-169 | as written, a GET of `origin/constructor` is served cache first without being listed; read as membership, it is declined |
| `PropertyLookups.PrototypeKeySurvivesUpgrade` | docs/flutter_service_worker.js:125-127 | as written, an entry under `origin/constructor` is retained by an upgrade that lists no such key; read as membership, it is evicted |
| `PropertyLookups.ChooseAgreesOffPrototype` | docs/flutter_service_worker.js:167 | for keys other than the inherited names, and with non-empty fingerprints, the routes as written and by membership agree |
| `PropertyLookups.RetainedAgreesOffPrototype` | docs/flutter_service_worker.js:125 | for keys other than the inherited names, and with non-empty fingerprints, retention as written and by membership agree |
| `PropertyLookups.PrototypeKeyNeverRequested` | docs/flutter_service_worker.js:214-218 | as written, a listed key `constructor` that the content cache lacks is never requested; read as membership, it is |
| `PropertyLookups.PendingAgreesOffPrototype` | docs/flutter_service_worker.js:214-218 | for key orders without the inherited names, the keys requested as written and by membership are the same list |

## Left out

- Browser objects are left out: the Cache API, `fetch`, `Request` and `Response`. Caches are maps keyed by the exact URL string. Fragment-insensitive matching, `Vary` handling, and `put` rejecting partial (206) responses are not modelled.
- The un-awaited `cache.put` calls (lines 181, 227) and the un-awaited `downloadOffline()` (line 197) are treated as finishing inside their handler. A rejected put is not modelled.
- Storage errors outside `activate`'s `try` block are left out, including:
  - a rejected `caches.open` in the install, fetch and message handlers (lines 84, 174, 205, 226, 231);
  - a rejected `cache.match` (lines 176, 232);
  - a rejected `contentCache.keys()` (line 207);
  - a rejected `caches.delete` during the purge (lines 144-146);
  - the batch write of `addAll` rejecting after every fetch succeeded, for example on quota (lines 85, 219). `CacheOps.AddAll`, `Provisioning.Install` and `Messages.DownloadOffline` therefore succeed exactly when every fetch is ok, which simplifies the browser's behaviour.
- Concurrency between overlapping handlers is left out. Each handler is one atomic step.
- `addAll` rejecting a batch that names the same request twice is left out. `CORE` has no repeated key.
- `Keys.ResolveUrl`: the URL parser is not modelled. The model does not percent-encode spaces, double quotes or non-ASCII characters, turn `\` into `/`, split off a `#` fragment or `?` query, read a first segment ending in `:` as a scheme, or remove `.`, `..` and `%2e` dot segments. `Keys.WellFormedKey` excludes every key the parser would rewrite this way: such characters, `:` and `%`, a leading `.`, and any `/.`. The round-trip lemmas therefore cover only keys the browser gives back unchanged. A manifest key outside that shape would not come back from its URL: it would be evicted on every upgrade and requested by every `downloadOffline`.
- URL resolution only covers what manifest keys need. A relative key is resolved against `origin + "/"` and a path-absolute key against the origin. This assumes the worker is served from the origin's root. Dot segments and queries are not resolved.
- The effects of `self.skipWaiting()` and `self.clients.claim()` on the browser are left out. They are recorded only as the `skipWaiting` and `claimed` results, and the unconditional `skipWaiting()` at install (line 82) is not recorded.
- `console.error` (line 143) is left out.
- The JSON serialisation of the saved manifest (lines 110, 115, 137) is left out. The store holds the manifest itself, and a parse that rejects is one of the injectable faults.
- `{'cache': 'reload'}` (line 86) is left out.
- The fingerprint values in `RESOURCES` are left out. `Build` keeps only the keys, in object order.
- `Activation.Activate`: storage faults are a function of the operation. So an operation repeated with the same arguments fails or succeeds both times. The only repeated operation is the second `caches.open(CACHE_NAME)` (line 103).
- A failed install discards the new worker, and the lifecycle of worker instances is not modelled. `Provisioning.Install` returns `None` and leaves temp unchanged.
- `Messages.HandleMessage`: a non-string `data` is one `NonText` value. `DownloadOffline` takes `Object.keys(RESOURCES)` as the key-order parameter. The lemmas about it assume that parameter enumerates the manifest.
- `PropertyLookups`: `!=` between a fingerprint string and an inherited built-in is modelled as plain inequality. JavaScript would compare the fingerprint with the built-in's source text, which no hex fingerprint equals.

## Findings

| source | as written | input that shows it | evidently intended | confidence | as-written member | corrected member |
|---|---|---|---|---|---|---|
| docs/flutter_service_worker.js:167 | `!RESOURCES[key]` also finds the properties inherited from `Object.prototype` | a GET of `origin + "/constructor"` when the manifest has no such key | decline every request whose key the manifest does not list | high; not executed | `PropertyLookups.PrototypeKeyIntercepted` | `Router.HandleFetch` |
| docs/flutter_service_worker.js:125 | `RESOURCES[key] != oldManifest[key]` compares the same inherited built-in for such keys, so the entry is kept | a content entry under `origin + "/constructor"` during an upgrade whose manifests do not list it | evict every entry whose key the new manifest does not list | high; not executed | `PropertyLookups.PrototypeKeySurvivesUpgrade` | `Activation.Reconcile` |
| docs/flutter_service_worker.js:215 | `!currentContent[resourceKey]` also finds the properties `{}` inherits, so such a key counts as present | a manifest listing `constructor` whose content cache lacks it | request every listed key the content cache does not hold | high; not executed | `PropertyLookups.PrototypeKeyNeverRequested` | `Messages.Pending` |

The two effects compound. The fetch handler caches `origin/constructor` (or `toString`, `valueOf`, and the other inherited names) when the response is ok. Every later upgrade then keeps that entry, so storage leaks. `downloadOffline` has the same blind spot: a listed key named after an inherited property counts as already present, so it is never downloaded, and such a manifest is never complete offline. The rest of the model reads all three lookups as key membership (`Router.Choose`, `Activation.Retained`, `Messages.Pending`). The `Agrees` lemmas show this reading matches the code for every other key, given non-empty fingerprints for the first two.

=== FILE: activation.dfy ===
/** The `activate` handler: reconcile the content cache with the new manifest,
    or purge every cache when any storage step fails. */
module Activation {
  import opened Text
  import opened Model
  import opened Keys

  /** An entry of the content cache survives an upgrade when its key is
      listed in the new manifest with the fingerprint the previous one gave it. */
  predicate Retained(origin: Url, resources: Manifest, previous: Manifest, url: Url): (b: bool)
    ensures b ==> EntryKey(origin, url) in resources
  {
    var k := EntryKey(origin, url);
    k in resources && k in previous && resources[k] == previous[k]
  }

  /** The content entries an upgrade keeps. */
  function Kept(origin: Url, resources: Manifest, previous: Manifest, content: Cache): (kept: Cache)
    ensures forall u :: u in kept <==> u in content && Retained(origin, resources, previous, u)
    ensures forall u :: u in kept ==> kept[u] == content[u]
  {
    map u | u in content && Retained(origin, resources, previous, u) :: content[u]
  }

  /** The state a successful activation leaves. Without a saved manifest the
      content cache is rebuilt from temp alone; with one, the retained entries
      are kept and temp is merged over them. Either way temp is gone and the
      new manifest is saved. */
  function Reconcile(origin: Url, resources: Manifest, s: Storage): (r: Storage)
    ensures r.temp == map[] && r.saved == Some(resources)
    ensures s.saved.None? ==> r.content == s.temp
    ensures s.saved.Some? ==> forall u :: u in r.content <==>
              u in s.temp || (u in s.content && Retained(origin, resources, s.saved.value, u))
    ensures forall u :: u in r.content ==> r.content[u] == if u in s.temp then s.temp[u] else s.content[u]
  {
    match s.saved
    case None => Storage(s.temp, map[], Some(resources))
    case Some(previous) => Storage(Kept(origin, resources, previous, s.content) + s.temp, map[], Some(resources))
  }

  datatype CacheName = ContentCache | TempCache | ManifestCache

  /** The awaited storage operations of the handler; any of them may reject. */
  datatype StorageOp =
    | Open(name: CacheName)
    | DeleteCache(name: CacheName)
    | ListKeys(name: CacheName)
    | MatchEntry(name: CacheName, url: Url)
    | PutEntry(name: CacheName, url: Url)
    | DeleteEntry(name: CacheName, url: Url)
    | ReadManifest
    | ParseManifest
    | SaveManifest

  /** Which storage operations reject. */
  type Faults = StorageOp -> bool

  /** The reads and puts of the copy loop. */
  function CopyOps(temp: Cache): (ops: set<StorageOp>)
    ensures forall op :: op in ops ==> op.MatchEntry? || op.PutEntry?
    ensures forall u :: MatchEntry(TempCache, u) in ops <==> u in temp
    ensures forall u :: PutEntry(ContentCache, u) in ops <==> u in temp
  {
    (set u | u in temp :: MatchEntry(TempCache, u)) + (set u | u in temp :: PutEntry(ContentCache, u))
  }

  /** The deletes of the eviction loop. */
  function EvictOps(origin: Url, resources: Manifest, previous: Manifest, content: Cache): (ops: set<StorageOp>)
    ensures forall op :: op in ops ==> op.DeleteEntry?
    ensures forall u :: DeleteEntry(ContentCache, u) in ops <==> u in content && !Retained(origin, resources, previous, u)
  {
    set u | u in content && !Retained(origin, resources, previous, u) :: DeleteEntry(ContentCache, u)
  }

  /** The operations a fault-free activation performs. */
  function ActivateOps(origin: Url, resources: Manifest, s: Storage): (ops: set<StorageOp>)
    ensures {Open(ContentCache), Open(TempCache), Open(ManifestCache), ReadManifest, ListKeys(TempCache), DeleteCache(TempCache), SaveManifest} <= ops
    ensures forall u :: MatchEntry(TempCache, u) in ops <==> u in s.temp
    ensures forall u :: PutEntry(ContentCache, u) in ops <==> u in s.temp
    ensures forall u :: DeleteEntry(ContentCache, u) in ops <==> s.saved.Some? && u in s.content && !Retained(origin, resources, s.saved.value, u)
    ensures DeleteCache(ContentCache) in ops <==> s.saved.None?
    ensures ParseManifest in ops <==> s.saved.Some?
  {
    var common :=
      {Open(ContentCache), Open(TempCache), Open(ManifestCache), ReadManifest,
       ListKeys(TempCache), DeleteCache(TempCache), SaveManifest}
      + CopyOps(s.temp);
    match s.saved
    case None => common + {DeleteCache(ContentCache)}
    case Some(previous) =>
      common + {ParseManifest, ListKeys(ContentCache)} + EvictOps(origin, resources, previous, s.content)
  }

  /** The loop over `tempCache.keys()`: each temp entry is read and put into
      content, overwriting. */
  method CopyTemp(content: Cache, temp: Cache, fails: Faults) returns (r: Option<Cache>)
    ensures r.Some? <==> forall u :: u in temp ==> !fails(MatchEntry(TempCache, u)) && !fails(PutEntry(ContentCache, u))
    ensures r.Some? ==> r.value == content + temp
  {
    var acc := content;
    var pending := temp.Keys;
    while pending != {}
      invariant pending <= temp.Keys
      invariant forall u :: u in temp && u !in pending ==> !fails(MatchEntry(TempCache, u)) && !fails(PutEntry(ContentCache, u))
      invariant acc == content + map u | u in temp && u !in pending :: temp[u]
      decreases pending
    {
      var u :| u in pending;
      if fails(MatchEntry(TempCache, u)) || fails(PutEntry(ContentCache, u)) {
        return None;
      }
      acc := acc[u := temp[u]];
      pending := pending - {u};
    }
    assert (map u | u in temp && u !in pending :: temp[u]) == temp;
    return Some(acc);
  }

  /** The entries the eviction loop still holds: those not yet visited, and
      the retained ones. */
  function Survivors(origin: Url, resources: Manifest, previous: Manifest, content: Cache, pending: set<Url>): (m: Cache)
    ensures pending == {} ==> m == Kept(origin, resources, previous, content)
  {
    map u | u in content && (u in pending || Retained(origin, resources, previous, u)) :: content[u]
  }

  /** Visiting one entry deletes it exactly when it is not retained. */
  lemma SurvivorsStep(origin: Url, resources: Manifest, previous: Manifest, content: Cache, pending: set<Url>, u: Url)
    requires u in pending
    ensures Retained(origin, resources, previous, u) ==>
              Survivors(origin, resources, previous, content, pending - {u}) == Survivors(origin, resources, previous, content, pending)
    ensures !Retained(origin, resources, previous, u) ==>
              Survivors(origin, resources, previous, content, pending - {u}) == Survivors(origin, resources, previous, content, pending) - {u}
  {
  }

  /** The loop over `contentCache.keys()` of an upgrade: every entry that is
      not retained is deleted. */
  method EvictStale(origin: Url, resources: Manifest, previous: Manifest, content: Cache, fails: Faults)
    returns (r: Option<Cache>)
    ensures r.Some? <==> forall u :: u in content && !Retained(origin, resources, previous, u) ==> !fails(DeleteEntry(ContentCache, u))
    ensures r.Some? ==> r.value == Kept(origin, resources, previous, content)
  {
    var acc := content;
    var pending := content.Keys;
    while pending != {}
      invariant pending <= content.Keys
      invariant forall u :: u in content && u !in pending && !Retained(origin, resources, previous, u) ==> !fails(DeleteEntry(ContentCache, u))
      invariant acc == Survivors(origin, resources, previous, content, pending)
      decreases pending
    {
      var u :| u in pending;
      SurvivorsStep(origin, resources, previous, content, pending, u);
      if !Retained(origin, resources, previous, u) {
        if fails(DeleteEntry(ContentCache, u)) {
          return None;
        }
        acc := acc - {u};
      }
      pending := pending - {u};
    }
    return Some(acc);
  }

  /** The handler as a whole. It claims the clients exactly when no operation
      of its run rejects, and then leaves the reconciled state; otherwise it
      deletes all three caches, whichever step failed. */
  method Activate(origin: Url, resources: Manifest, s: Storage, fails: Faults) returns (r: Storage, claimed: bool)
    ensures claimed <==> forall op :: op in ActivateOps(origin, resources, s) ==> !fails(op)
    ensures claimed ==> r == Reconcile(origin, resources, s)
    ensures !claimed ==> r == Purged
  {
    var ops := ActivateOps(origin, resources, s);
    if fails(Open(ContentCache)) || fails(Open(TempCache)) || fails(Open(ManifestCache)) || fails(ReadManifest) {
      return Purged, false;
    }
    var content := s.content;
    if s.saved.None? {
      if fails(DeleteCache(ContentCache)) || fails(ListKeys(TempCache)) {
        return Purged, false;
      }
      content := map[];
    } else {
      if fails(ParseManifest) || fails(ListKeys(ContentCache)) {
        return Purged, false;
      }
      var evicted := EvictStale(origin, resources, s.saved.value, content, fails);
      if evicted.None? {
        var u :| u in content && !Retained(origin, resources, s.saved.value, u) && fails(DeleteEntry(ContentCache, u));
        assert DeleteEntry(ContentCache, u) in ops;
        return Purged, false;
      }
      if fails(ListKeys(TempCache)) {
        return Purged, false;
      }
      content := evicted.value;
    }
    var copied := CopyTemp(content, s.temp, fails);
    if copied.None? {
      var u :| u in s.temp && (fails(MatchEntry(TempCache, u)) || fails(PutEntry(ContentCache, u)));
      assert MatchEntry(TempCache, u) in ops && PutEntry(ContentCache, u) in ops;
      return Purged, false;
    }
    if fails(DeleteCache(TempCache)) || fails(SaveManifest) {
      return Purged, false;
    }
    NoOperationFailed(origin, resources, s, fails);
    return Storage(copied.value, map[], Some(resources)), true;
  }

  /** When each step of a run succeeds, no operation of the run failed. */
  lemma NoOperationFailed(origin: Url, resources: Manifest, s: Storage, fails: Faults)
    requires !fails(Open(ContentCache)) && !fails(Open(TempCache)) && !fails(Open(ManifestCache)) && !fails(ReadManifest)
    requires !fails(ListKeys(TempCache)) && !fails(DeleteCache(TempCache)) && !fails(SaveManifest)
    requires forall u :: u in s.temp ==> !fails(MatchEntry(TempCache, u)) && !fails(PutEntry(ContentCache, u))
    requires s.saved.None? ==> !fails(DeleteCache(ContentCache))
    requires s.saved.Some? ==> !fails(ParseManifest) && !fails(ListKeys(ContentCache))
    requires s.saved.Some? ==>
               forall u :: u in s.content && !Retained(origin, resources, s.saved.value, u) ==> !fails(DeleteEntry(ContentCache, u))
    ensures forall op :: op in ActivateOps(origin, resources, s) ==> !fails(op)
  {
  }

  /** Change and removal: an entry whose key the previous manifest listed,
      but the new one drops or lists with another fingerprint, is gone after
      an upgrade unless temp brings a fresh copy, which then replaces it. */
  lemma ChangedEntryReplacedOrDropped(origin: Url, resources: Manifest, s: Storage, u: Url)
    requires s.saved.Some? && u in s.content
    requires var k := EntryKey(origin, u);
             k in s.saved.value && (k !in resources || resources[k] != s.saved.value[k])
    ensures u in Reconcile(origin, resources, s).content <==> u in s.temp
    ensures u in s.temp ==> Reconcile(origin, resources, s).content[u] == s.temp[u]
  {
  }

  /** An entry whose key the new manifest lists with an unchanged
      fingerprint is carried forward as it was, unless temp overrides it. */
  lemma UnchangedEntryCarriedForward(origin: Url, resources: Manifest, s: Storage, u: Url)
    requires s.saved.Some? && u in s.content && u !in s.temp
    requires var k := EntryKey(origin, u);
             k in resources && k in s.saved.value && resources[k] == s.saved.value[k]
    ensures u in Reconcile(origin, resources, s).content
    ensures Reconcile(origin, resources, s).content[u] == s.content[u]
  {
  }

  /** Reconciling against a saved manifest equal to the new one keeps every
      content entry whose key is listed, and drops the rest. */
  lemma SameManifestKeepsListed(origin: Url, resources: Manifest, s: Storage)
    requires s.saved == Some(resources)
    ensures var r := Reconcile(origin, resources, s);
            forall u :: u in r.content <==> u in s.temp || (u in s.content && EntryKey(origin, u) in resources)
  {
  }

  /** Idempotence: when every temp entry's key is listed, a second
      reconciliation with the same manifest changes nothing. */
  lemma ReconcileIdempotent(origin: Url, resources: Manifest, s: Storage)
    requires forall u :: u in s.temp ==> EntryKey(origin, u) in resources
    ensures Reconcile(origin, resources, Reconcile(origin, resources, s)) == Reconcile(origin, resources, s)
  {
  }

  /** Reconciling a settled state with a temp cache whose entries the content
      cache already holds, unchanged, gives the settled state back. */
  lemma SettledAbsorbsTemp(origin: Url, resources: Manifest, s: Storage, temp: Cache)
    requires s.saved == Some(resources) && s.temp == map[]
    requires forall u :: u in s.content ==> EntryKey(origin, u) in resources
    requires forall u :: u in temp ==> u in s.content && s.content[u] == temp[u]
    ensures Reconcile(origin, resources, s.(temp := temp)) == s
  {
    var r := Reconcile(origin, resources, s.(temp := temp));
    assert r.content.Keys == s.content.Keys;
  }

  /** An entry stored under `origin/p?v=n` never survives an upgrade unless
      temp holds that URL: its entry key keeps the query, and no manifest key
      contains the marker. */
  lemma VersionedEntryEvicted(origin: Url, resources: Manifest, s: Storage, p: string, n: string)
    requires s.saved.Some?
    requires forall k :: k in resources ==> !Contains(k, VersionMarker)
    requires origin + "/" + p + VersionMarker + n !in s.temp
    ensures origin + "/" + p + VersionMarker + n !in Reconcile(origin, resources, s).content
  {
    VersionQueryKeptInEntryKey(origin, p, n);
  }
}

=== FILE: build.dfy ===
/** The constants the build baked into the worker: the keys of `RESOURCES`,
    in the order the object lists them, and `CORE`. The fingerprints are
    opaque build output and are not reproduced. */
module Build {
  import opened Text
  import opened Model
  import opened Keys

  /** `Object.keys(RESOURCES)`, in the order the object lists them. */
  const ResourceKeys: seq<Key> := ManifestAssetKeys + AppAssetKeys + FrameworkAssetKeys + CanvasKitKeys + WebKeys

  /** The asset manifests. */
  const ManifestAssetKeys: seq<Key> := [
    "assets/AssetManifest.bin",
    "assets/AssetManifest.bin.json",
    "assets/AssetManifest.json"
  ]

  /** The application's own fonts, images and data. */
  const AppAssetKeys: seq<Key> := [
    "assets/assets/fonts/Inter/Inter-Italic-VariableFont_opsz,wght.ttf",
    "assets/assets/fonts/Inter/Inter-VariableFont_opsz,wght.ttf",
    "assets/assets/images/illustration.svg",
    "assets/assets/images/skills/android-original.svg",
    "assets/assets/images/skills/androidstudio-original.svg",
    "assets/assets/images/skills/apache-original.svg",
    "assets/assets/images/skills/apple-original.svg",
    "assets/assets/images/skills/canva-original.svg",
    "assets/assets/images/skills/cicd-custom.svg",
    "assets/assets/images/skills/css3-original.svg",
    "assets/assets/images/skills/dart-original.svg",
    "assets/assets/images/skills/dart.svg",
    "assets/assets/images/skills/firebase-original.svg",
    "assets/assets/images/skills/flutter-original.svg",
    "assets/assets/images/skills/git-original.svg",
    "assets/assets/images/skills/github-original.svg",
    "assets/assets/images/skills/google-play_5.svg",
    "assets/assets/images/skills/gradle-original.svg",
    "assets/assets/images/skills/html5-original.svg",
    "assets/assets/images/skills/ios-original.svg",
    "assets/assets/images/skills/java-original.svg",
    "assets/assets/images/skills/javascript-original.svg",
    "assets/assets/images/skills/kotlin-original.svg",
    "assets/assets/images/skills/linkedin-plain.svg",
    "assets/assets/images/skills/materialui-original.svg",
    "assets/assets/images/skills/mvc-custom.svg",
    "assets/assets/images/skills/mvvm-custom.svg",
    "assets/assets/images/skills/mysql-original.svg",
    "assets/assets/images/skills/php-original.svg",
    "assets/assets/images/skills/retrofit-custom.svg",
    "assets/assets/images/skills/volley-custom.svg",
    "assets/assets/images/skills/vscode-original-wordmark.svg",
    "assets/assets/images/skills/web-original.svg",
    "assets/assets/images/skills/xml-original.svg",
    "assets/assets/images/sunad.jpeg",
    "assets/assets/projects.json",
    "assets/assets/sunad_cv.pdf"
  ]

  /** The framework's fonts, notices and shaders. */
  const FrameworkAssetKeys: seq<Key> := [
    "assets/FontManifest.json",
    "assets/fonts/MaterialIcons-Regular.otf",
    "assets/NOTICES",
    "assets/packages/cupertino_icons/assets/CupertinoIcons.ttf",
    "assets/shaders/ink_sparkle.frag"
  ]

  /** The CanvasKit and Skwasm renderers. */
  const CanvasKitKeys: seq<Key> := [
    "canvaskit/canvaskit.js",
    "canvaskit/canvaskit.js.symbols",
    "canvaskit/canvaskit.wasm",
    "canvaskit/chromium/canvaskit.js",
    "canvaskit/chromium/canvaskit.js.symbols",
    "canvaskit/chromium/canvaskit.wasm",
    "canvaskit/skwasm.js",
    "canvaskit/skwasm.js.symbols",
    "canvaskit/skwasm.wasm"
  ]

  /** The web entry points, icons and the root document. */
  const WebKeys: seq<Key> := [
    "favicon.png",
    "flutter.js",
    "flutter_bootstrap.js",
    "icons/Icon-192.png",
    "icons/Icon-512.png",
    "icons/Icon-maskable-192.png",
    "icons/Icon-maskable-512.png",
    "index.html",
    "/",
    "main.dart.js",
    "manifest.json",
    "version.json"
  ]

  /** `CORE`: the application shell fetched during install. */
  const Core: seq<Key> := ["main.dart.js", "index.html", "flutter_bootstrap.js", "assets/AssetManifest.bin.json", "assets/FontManifest.json"]

  /** Every shell key is a listed resource, the root is listed, and the shell
      keys are well formed, so they come back from their URLs unchanged. */
  lemma CoreIsListed()
    ensures forall k :: k in Core ==> k in ResourceKeys
    ensures RootKey in ResourceKeys
    ensures forall k :: k in Core ==> WellFormedKey(k)
  {
    forall k | k in Core
      ensures WellFormedKey(k)
    {
      ShellKeyWellFormed(k);
    }
  }

  /** Each shell key is made of characters the URL parser keeps, with no
      dot segment. */
  lemma ShellKeyWellFormed(k: Key)
    requires k in Core
    ensures WellFormedKey(k)
  {
    if k == "main.dart.js" {
      MainWellFormed();
    } else if k == "index.html" {
      IndexWellFormed();
    } else if k == "flutter_bootstrap.js" {
      BootstrapWellFormed();
    } else if k == "assets/AssetManifest.bin.json" {
      AssetManifestWellFormed();
    } else {
      assert k == "assets/FontManifest.json";
      FontManifestWellFormed();
    }
  }

  lemma MainWellFormed()
    ensures WellFormedKey("main.dart.js")
  {
    var k := "main.dart.js";
    assert forall i :: 0 <= i < |k| ==> PathChar(k[i]);
    assert forall i :: 0 <= i < |k| - 1 ==> !(k[i] == '/' && k[i + 1] == '.');
  }

  lemma IndexWellFormed()
    ensures WellFormedKey("index.html")
  {
    var k := "index.html";
    assert forall i :: 0 <= i < |k| ==> PathChar(k[i]);
    assert forall i :: 0 <= i < |k| - 1 ==> !(k[i] == '/' && k[i + 1] == '.');
  }

  lemma BootstrapWellFormed()
    ensures WellFormedKey("flutter_bootstrap.js")
  {
    var k := "flutter_bootstrap.js";
    assert forall i :: 0 <= i < |k| ==> PathChar(k[i]);
    assert forall i :: 0 <= i < |k| - 1 ==> !(k[i] == '/' && k[i + 1] == '.');
  }

  lemma AssetManifestWellFormed()
    ensures WellFormedKey("assets/AssetManifest.bin.json")
  {
    var k := "assets/AssetManifest.bin.json";
    assert forall i :: 0 <= i < |k| ==> PathChar(k[i]);
    assert forall i :: 0 <= i < |k| - 1 ==> !(k[i] == '/' && k[i + 1] == '.');
  }

  lemma FontManifestWellFormed()
    ensures WellFormedKey("assets/FontManifest.json")
  {
    var k := "assets/FontManifest.json";
    assert forall i :: 0 <= i < |k| ==> PathChar(k[i]);
    assert forall i :: 0 <= i < |k| - 1 ==> !(k[i] == '/' && k[i + 1] == '.');
  }
}

=== FILE: cache_ops.dfy ===
/** The Cache API's `addAll`, the one batch operation the worker relies on. */
module CacheOps {
  import opened Model

  /** The URLs listed in `urls`. */
  function Listed(urls: seq<Url>): (listed: set<Url>)
  {
    set u | u in urls
  }

  /** Fetch every URL; succeed with all the responses only when each fetch
      resolves with an ok response. */
  function FetchAll(urls: seq<Url>, net: Network): (r: Option<Cache>)
    ensures r.Some? <==> forall i :: 0 <= i < |urls| ==> net(urls[i]).FetchedOk()
    ensures r.Some? ==> r.value.Keys == Listed(urls)
    ensures r.Some? ==> forall u :: u in r.value ==> r.value[u] == net(u).response
  {
    if |urls| == 0 then Some(map[])
    else if !net(urls[0]).FetchedOk() then None
    else match FetchAll(urls[1..], net)
      case None => None
      case Some(m) =>
        assert Listed(urls) == {urls[0]} + Listed(urls[1..]) by {
          assert urls == [urls[0]] + urls[1..];
        }
        Some(m[urls[0] := net(urls[0]).response])
  }

  /** `cache.addAll(urls)`: all or nothing. Either every URL was fetched ok and
      its response is stored (overwriting), or the call rejects and the cache
      is as it was. */
  function AddAll(cache: Cache, urls: seq<Url>, net: Network): (r: Option<Cache>)
    ensures r.Some? <==> forall i :: 0 <= i < |urls| ==> net(urls[i]).FetchedOk()
    ensures r.Some? ==> r.value.Keys == cache.Keys + Listed(urls)
    ensures r.Some? ==> forall u :: u in r.value ==> r.value[u] == if u in urls then net(u).response else cache[u]
  {
    match FetchAll(urls, net)
    case None => None
    case Some(fetched) => Some(cache + fetched)
  }
}

=== FILE: keys.dfy ===
/** How the worker turns a request URL into a resource key. The fetch handler
    and the cache-entry loops of `activate` and `downloadOffline` normalise
    differently, so there are two key functions. */
module Keys {
  import opened Text
  import opened Model

  /** The cache-busting query marker the fetch handler cuts at. */
  const VersionMarker: string := "?v="

  /** The key of the root document. */
  const RootKey: Key := "/"

  /** `url.substring(origin.length + 1)`: drops as many characters as the
      origin and its slash have, without checking that they are those. */
  function PathOf(origin: Url, url: Url): (p: string)
    ensures |p| == if |origin| + 1 <= |url| then |url| - |origin| - 1 else 0
    ensures origin + "/" <= url ==> p == url[|origin| + 1..]
  {
    Drop(url, |origin| + 1)
  }

  /** The fetch handler sends the bare origin, the origin followed by a
      fragment, and an empty path (after the cut at the marker) to the root. */
  predicate AddressesRoot(origin: Url, url: Url): (b: bool)
    ensures url == origin || url == origin + "/" || origin + "/#" <= url ==> b
    ensures origin + "/" <= url && |url| > |origin| + 1 && url[|origin| + 1] != '#' && url[|origin| + 1] != '?' ==> !b
  {
    url == origin || origin + "/#" <= url || BeforeFirst(PathOf(origin, url), VersionMarker) == ""
  }

  /** The fetch handler's key: the path up to the first `?v=`, or the root. */
  function RequestKey(origin: Url, url: Url): (k: Key)
    ensures k != ""
    ensures !Contains(k, VersionMarker)
    ensures AddressesRoot(origin, url) ==> k == RootKey
    ensures !AddressesRoot(origin, url) ==>
              var p := PathOf(origin, url);
              && k <= p
              && (k == p || OccursAt(p, VersionMarker, |k|))
              && forall i :: 0 <= i < |k| ==> !OccursAt(p, VersionMarker, i)
  {
    var key := BeforeFirst(PathOf(origin, url), VersionMarker);
    PrefixBeforeFirstIsFree(PathOf(origin, url), VersionMarker, key);
    if AddressesRoot(origin, url) then RootKey else key
  }

  /** The key of a stored cache entry, as `activate` and `downloadOffline`
      derive it: the path, with only the empty path read as the root. */
  function EntryKey(origin: Url, url: Url): (k: Key)
    ensures k != ""
    ensures PathOf(origin, url) != "" ==> k == PathOf(origin, url)
    ensures PathOf(origin, url) == "" ==> k == RootKey
  {
    var p := PathOf(origin, url);
    if p == "" then RootKey else p
  }

  /** The URL a manifest key names when it is handed to `addAll`: a
      path-absolute key is resolved against the origin, any other key against
      the worker's directory, `origin + "/"`. */
  function ResolveUrl(origin: Url, k: Key): (u: Url)
    ensures origin + "/" <= u
    ensures PathOf(origin, u) == if |k| > 0 && k[0] == '/' then k[1..] else k
  {
    if |k| > 0 && k[0] == '/' then origin + k else origin + "/" + k
  }

  /** A character the URL parser keeps as it is in a relative path: an ASCII
      letter or digit, one of the unreserved and sub-delimiter marks, `@` or
      `/`. Spaces, `\\`, `#`, `?`, quotes and non-ASCII characters are
      rewritten or end the path; `:` can make a first segment a scheme, and
      `%` can spell a dot segment; so all of them are excluded. */
  predicate PathChar(c: char)
  {
    || 'a' <= c <= 'z' || 'A' <= c <= 'Z' || '0' <= c <= '9'
    || c in {'-', '.', '_', '~', '!', '$', '&', '\'', '(', ')', '*', '+', ',', ';', '=', '@', '/'}
  }

  /** The shape of every manifest key: the root, or a non-empty relative path
      of characters the URL parser leaves unchanged, with no segment starting
      with a dot, so no `.` or `..` segment for the parser to remove. */
  predicate WellFormedKey(k: Key)
  {
    || k == RootKey
    || (&& k != ""
        && k[0] != '/'
        && k[0] != '.'
        && (forall i :: 0 <= i < |k| ==> PathChar(k[i]))
        && (forall i :: 0 <= i < |k| - 1 ==> !(k[i] == '/' && k[i + 1] == '.')))
  }

  /** A prefix in front of the first occurrence of `pat` holds no occurrence. */
  lemma PrefixBeforeFirstIsFree(s: string, pat: string, p: string)
    requires p <= s
    requires forall i :: 0 <= i < |p| ==> !OccursAt(s, pat, i)
    requires |pat| > 0
    ensures !Contains(p, pat)
  {
    forall i | OccursAt(p, pat, i)
      ensures false
    {
      assert s[i..i + |pat|] == p[i..i + |pat|];
      assert OccursAt(s, pat, i);
    }
  }

  /** "?v=" cannot start inside `p + "?v="` unless it already lies in `p`:
      the marker does not overlap itself. */
  lemma MarkerFirstAfter(p: string, rest: string)
    requires !Contains(p, VersionMarker)
    ensures forall i :: 0 <= i < |p| ==> !OccursAt(p + VersionMarker + rest, VersionMarker, i)
  {
    var s := p + VersionMarker + rest;
    forall i | 0 <= i < |p|
      ensures !OccursAt(s, VersionMarker, i)
    {
      if i + 3 <= |p| {
        assert s[i..i + 3] == p[i..i + 3];
        assert !OccursAt(p, VersionMarker, i);
      } else {
        var j := |p| - i;
        assert s[i..i + 3][j] == s[|p|] == '?';
        assert VersionMarker[j] != '?';
      }
    }
  }

  /** A string without a question mark cannot hold the marker. */
  lemma NoMarkerWithoutQuestionMark(p: string)
    requires '?' !in p
    ensures !Contains(p, VersionMarker)
  {
    forall i | 0 <= i && i + 3 <= |p|
      ensures !OccursAt(p, VersionMarker, i)
    {
      assert p[i..i + 3][0] == p[i] && p[i] in p;
    }
  }

  /** A key free of the marker is its own cut. */
  lemma BeforeFirstOfFree(p: string)
    requires !Contains(p, VersionMarker)
    ensures BeforeFirst(p, VersionMarker) == p
  {
  }

  /** The cut of `p + "?v=" + n` is `p`. */
  lemma BeforeFirstOfVersioned(p: string, n: string)
    requires !Contains(p, VersionMarker)
    ensures BeforeFirst(p + VersionMarker + n, VersionMarker) == p
  {
    var s := p + VersionMarker + n;
    MarkerFirstAfter(p, n);
    assert s[|p|..|p| + 3] == VersionMarker;
    BeforeFirstUnique(s, VersionMarker, p);
  }

  /** Query stripping: `origin/p?v=n` and `origin/p` get the same request key. */
  lemma VersionQueryIgnored(origin: Url, p: string, n: string)
    requires !Contains(p, VersionMarker)
    ensures RequestKey(origin, origin + "/" + p + VersionMarker + n) == RequestKey(origin, origin + "/" + p)
    ensures RequestKey(origin, origin + "/" + p) == if p == "" || p[0] == '#' then RootKey else p
  {
    PlainRequestKey(origin, p);
    VersionedRequestKey(origin, p, n);
  }

  /** The request key of `origin/p`, for `p` free of the marker. */
  lemma PlainRequestKey(origin: Url, p: string)
    requires !Contains(p, VersionMarker)
    ensures RequestKey(origin, origin + "/" + p) == if p == "" || p[0] == '#' then RootKey else p
  {
    assert PathOf(origin, origin + "/" + p) == p;
    BeforeFirstOfFree(p);
    KeyOfCut(origin, origin + "/" + p, p);
  }

  /** The request key of `origin/p?v=n` is that of `origin/p`. */
  lemma VersionedRequestKey(origin: Url, p: string, n: string)
    requires !Contains(p, VersionMarker)
    ensures RequestKey(origin, origin + "/" + p + VersionMarker + n) == if p == "" || p[0] == '#' then RootKey else p
  {
    var versioned := origin + "/" + p + VersionMarker + n;
    assert versioned == origin + "/" + (p + VersionMarker + n);
    assert PathOf(origin, versioned) == p + VersionMarker + n;
    BeforeFirstOfVersioned(p, n);
    KeyOfCut(origin, versioned, p);
  }

  /** On the worker's origin, the request key is decided by the cut path:
      the root when the cut is empty or starts a fragment, the cut otherwise. */
  lemma KeyOfCut(origin: Url, url: Url, cut: string)
    requires origin + "/" <= url
    requires BeforeFirst(PathOf(origin, url), VersionMarker) == cut
    ensures RequestKey(origin, url) == if cut == "" || cut[0] == '#' then RootKey else cut
  {
    var path := PathOf(origin, url);
    assert path == url[|origin| + 1..];
    assert url != origin;
    if cut != "" {
      assert cut[0] == path[0] == url[|origin| + 1];
      assert origin + "/#" <= url <==> url[|origin| + 1] == '#' by {
        assert (origin + "/#")[..|origin| + 1] == origin + "/";
        assert (origin + "/#")[|origin| + 1] == '#';
        if url[|origin| + 1] == '#' {
          assert url[..|origin| + 2] == origin + "/#";
        }
      }
    }
  }

  /** Root canonicalisation: the bare origin, `origin/`, `origin/#...` and
      `origin/?v=...` all have the root key. */
  lemma RootAddresses(origin: Url, fragment: string, n: string)
    ensures RequestKey(origin, origin) == RootKey
    ensures RequestKey(origin, origin + "/") == RootKey
    ensures RequestKey(origin, origin + "/#" + fragment) == RootKey
    ensures RequestKey(origin, origin + "/" + VersionMarker + n) == RootKey
  {
  }

  /** The entry key keeps the query: an entry stored under `origin/p?v=n` has
      a key that contains the marker, which no request key does. */
  lemma VersionQueryKeptInEntryKey(origin: Url, p: string, n: string)
    ensures EntryKey(origin, origin + "/" + p + VersionMarker + n) == p + VersionMarker + n
    ensures Contains(EntryKey(origin, origin + "/" + p + VersionMarker + n), VersionMarker)
  {
    var url := origin + "/" + p + VersionMarker + n;
    assert PathOf(origin, url) == p + VersionMarker + n;
    assert OccursAt(p + VersionMarker + n, VersionMarker, |p|);
  }

  /** Round trip: the URL a well-formed key is fetched under yields that key
      back, both as an entry key and as a request key. */
  lemma ResolveRoundTrip(origin: Url, k: Key)
    requires WellFormedKey(k)
    ensures EntryKey(origin, ResolveUrl(origin, k)) == k
    ensures RequestKey(origin, ResolveUrl(origin, k)) == k
  {
    if k == RootKey {
      RootAddresses(origin, "", "");
      assert origin + "/" + "" == origin + "/";
    } else {
      assert '?' !in k by {
        forall i | 0 <= i < |k|
          ensures k[i] != '?'
        {
          assert PathChar(k[i]);
        }
      }
      NoMarkerWithoutQuestionMark(k);
      assert PathChar(k[0]);
      PlainRequestKey(origin, k);
    }
  }

  /** The request key does not look at the origin's characters: a URL on a
      different origin of the same length maps to the same key as the same
      path on the worker's own origin. */
  lemma OtherOriginSameLengthAliases(origin: Url, other: Url, p: string)
    requires |other| == |origin| && other != origin
    requires p != "" && p[0] != '#'
    ensures RequestKey(origin, other + "/" + p) == RequestKey(origin, origin + "/" + p)
  {
  }
}

=== FILE: lifecycle.dfy ===
/** Install followed by activation, and the shipped constants run through
    them. */
module Lifecycle {
  import opened Text
  import opened Model
  import opened Keys
  import opened CacheOps
  import opened Provisioning
  import opened Activation
  import opened Build

  /** First activation after an install: the content cache holds exactly the
      shell, as fetched, and the manifest is saved, whatever content held. */
  lemma FirstActivationServesShell(origin: Url, core: seq<Key>, resources: Manifest, content: Cache, net: Network)
    requires Install(origin, core, map[], net).Some?
    ensures var r := Reconcile(origin, resources, Storage(content, Install(origin, core, map[], net).value, None));
            && r.content.Keys == (set k | k in core :: ResolveUrl(origin, k))
            && (forall k :: k in core ==> r.content[ResolveUrl(origin, k)] == net(ResolveUrl(origin, k)).response)
            && r.temp == map[]
            && r.saved == Some(resources)
  {
  }

  /** With a listed, well-formed shell, activating twice is activating once. */
  lemma ReactivationChangesNothing(origin: Url, core: seq<Key>, resources: Manifest, s: Storage, net: Network)
    requires forall k :: k in core ==> k in resources && WellFormedKey(k)
    requires Install(origin, core, map[], net).Some?
    ensures var once := Reconcile(origin, resources, s.(temp := Install(origin, core, map[], net).value));
            Reconcile(origin, resources, once) == once
  {
    InstalledEntriesListed(origin, core, resources, net);
    ReconcileIdempotent(origin, resources, s.(temp := Install(origin, core, map[], net).value));
  }

  /** The worker's own cycle, twice: install and activate, then install
      again from the same network and activate with the same manifest. The
      second cycle leaves every cache as the first one did. */
  lemma ReinstallReactivationChangesNothing(origin: Url, core: seq<Key>, resources: Manifest, s: Storage, net: Network)
    requires forall k :: k in core ==> k in resources && WellFormedKey(k)
    requires Install(origin, core, map[], net).Some?
    ensures var once := Reconcile(origin, resources, s.(temp := Install(origin, core, map[], net).value));
            && Install(origin, core, once.temp, net).Some?
            && Reconcile(origin, resources, once.(temp := Install(origin, core, once.temp, net).value)) == once
  {
    var shell := Install(origin, core, map[], net).value;
    var once := Reconcile(origin, resources, s.(temp := shell));
    InstalledEntriesListed(origin, core, resources, net);
    assert forall u :: u in once.content ==> EntryKey(origin, u) in resources;
    SettledAbsorbsTemp(origin, resources, once, shell);
  }

  /** The shipped shell meets that condition for any manifest listing the
      shipped keys. */
  lemma ShippedReactivationChangesNothing(origin: Url, resources: Manifest, s: Storage, net: Network)
    requires forall k :: k in ResourceKeys ==> k in resources
    requires Install(origin, Core, map[], net).Some?
    ensures var once := Reconcile(origin, resources, s.(temp := Install(origin, Core, map[], net).value));
            Reconcile(origin, resources, once) == once
  {
    CoreIsListed();
    ReactivationChangesNothing(origin, Core, resources, s, net);
  }

  /** The worked upgrade: with `a` unchanged, `b` removed and the root
      unchanged, an empty temp leaves `a` and the root and drops `b`. */
  lemma UpgradeExample()
    ensures var origin := "https://app";
            var s := Storage(map["https://app/a" := Response(200, "A"), "https://app/b" := Response(200, "B"), "https://app/" := Response(200, "R")],
                             map[], Some(map["a" := "h1", "b" := "h2", "/" := "h0"]));
            Reconcile(origin, map["a" := "h1", "/" := "h0"], s).content
              == map["https://app/a" := Response(200, "A"), "https://app/" := Response(200, "R")]
  {
  }
}

=== FILE: messages.dfy ===
/** The `message` handler and `downloadOffline`. */
module Messages {
  import opened Model
  import opened Keys
  import opened CacheOps

  /** A message's `data`: a string, or any other value. */
  datatype Payload = StringData(text: string) | NonText

  /** The content cache afterwards, and whether `skipWaiting` was called. */
  datatype MessageEffect = MessageEffect(content: Cache, skipWaiting: bool)

  /** `currentContent`: the keys the content cache already holds. */
  function PresentKeys(origin: Url, content: Cache): (present: set<Key>)
    ensures forall u :: u in content ==> EntryKey(origin, u) in present
    ensures forall k :: k in present ==> exists u :: u in content && EntryKey(origin, u) == k
  {
    set u | u in content :: EntryKey(origin, u)
  }

  /** The keys of `order` that are not present, in the order given. */
  function Pending(order: seq<Key>, present: set<Key>): (r: seq<Key>)
    ensures forall k :: k in r <==> k in order && k !in present
    ensures |r| <= |order|
  {
    if |order| == 0 then []
    else if order[0] in present then Pending(order[1..], present)
    else [order[0]] + Pending(order[1..], present)
  }

  /** No key occurs twice. */
  ghost predicate Distinct(keys: seq<Key>)
  {
    forall i, j :: 0 <= i < j < |keys| ==> keys[i] != keys[j]
  }

  /** `order` is `Object.keys(RESOURCES)`: every listed key, each once. */
  ghost predicate Enumerates(order: seq<Key>, resources: Manifest)
  {
    && (forall k :: k in order <==> k in resources)
    && Distinct(order)
  }

  /** The URLs a list of keys is requested under. */
  function RequestedUrls(origin: Url, keys: seq<Key>): (urls: set<Url>)
  {
    set k | k in keys :: ResolveUrl(origin, k)
  }

  /** `downloadOffline()`: one `addAll` of every pending key, all or nothing;
      None when it rejects, leaving the content cache as it was. On success
      exactly the pending keys' URLs are added, each with its fetched
      response, and every other entry keeps its response. */
  function DownloadOffline(origin: Url, order: seq<Key>, content: Cache, net: Network): (r: Option<Cache>)
    ensures r.Some? <==> forall k :: k in order && k !in PresentKeys(origin, content) ==> net(ResolveUrl(origin, k)).FetchedOk()
    ensures r.Some? ==> r.value.Keys == content.Keys + RequestedUrls(origin, Pending(order, PresentKeys(origin, content)))
    ensures r.Some? ==> forall u :: u in r.value ==>
              if u in RequestedUrls(origin, Pending(order, PresentKeys(origin, content)))
              then net(u) == Fetched(r.value[u]) && r.value[u].Ok()
              else r.value[u] == content[u]
    ensures r.Some? ==> forall k :: k in order && WellFormedKey(k) ==> k in PresentKeys(origin, r.value)
  {
    var pending := Pending(order, PresentKeys(origin, content));
    var urls := seq(|pending|, i requires 0 <= i < |pending| => ResolveUrl(origin, pending[i]));
    PendingUrls(pending, origin, urls, net);
    PendingUrlsListed(pending, origin, urls);
    var r := AddAll(content, urls, net);
    if r.Some? then PendingFilled(origin, order, content, urls, r.value); r else r
  }

  /** The URLs `downloadOffline` hands to `addAll` all fetch ok exactly when
      every pending key does. */
  lemma PendingUrls(keys: seq<Key>, origin: Url, urls: seq<Url>, net: Network)
    requires |urls| == |keys| && forall i :: 0 <= i < |keys| ==> urls[i] == ResolveUrl(origin, keys[i])
    ensures (forall i :: 0 <= i < |urls| ==> net(urls[i]).FetchedOk())
        <==> forall k :: k in keys ==> net(ResolveUrl(origin, k)).FetchedOk()
  {
    if forall i :: 0 <= i < |urls| ==> net(urls[i]).FetchedOk() {
      forall k | k in keys
        ensures net(ResolveUrl(origin, k)).FetchedOk()
      {
        var i :| 0 <= i < |keys| && keys[i] == k;
        assert urls[i] == ResolveUrl(origin, k);
      }
    }
  }

  /** Those URLs are exactly the URLs of the pending keys. */
  lemma PendingUrlsListed(keys: seq<Key>, origin: Url, urls: seq<Url>)
    requires |urls| == |keys| && forall i :: 0 <= i < |keys| ==> urls[i] == ResolveUrl(origin, keys[i])
    ensures Listed(urls) == RequestedUrls(origin, keys)
  {
    forall k | k in keys
      ensures ResolveUrl(origin, k) in Listed(urls)
    {
      var i :| 0 <= i < |keys| && keys[i] == k;
      assert urls[i] == ResolveUrl(origin, k);
    }
  }

  /** Once the content entries and those URLs are stored, every well-formed
      key of the order is present. */
  lemma PendingFilled(origin: Url, order: seq<Key>, content: Cache, urls: seq<Url>, filled: Cache)
    requires var pending := Pending(order, PresentKeys(origin, content));
             |urls| == |pending| && forall i :: 0 <= i < |pending| ==> urls[i] == ResolveUrl(origin, pending[i])
    requires content.Keys + Listed(urls) <= filled.Keys
    ensures forall k :: k in order && WellFormedKey(k) ==> k in PresentKeys(origin, filled)
  {
    var present := PresentKeys(origin, content);
    var pending := Pending(order, present);
    forall k | k in order && WellFormedKey(k)
      ensures k in PresentKeys(origin, filled)
    {
      if k in present {
        var u :| u in content && EntryKey(origin, u) == k;
        assert u in filled;
      } else {
        var i :| 0 <= i < |pending| && pending[i] == k;
        assert urls[i] == ResolveUrl(origin, k);
        ResolveRoundTrip(origin, k);
        assert ResolveUrl(origin, k) in filled;
      }
    }
  }

  /** The handler: `'skipWaiting'` asks to activate now, `'downloadOffline'`
      fills the content cache, anything else is ignored. */
  function HandleMessage(origin: Url, order: seq<Key>, content: Cache, data: Payload, net: Network): (r: MessageEffect)
    ensures r.skipWaiting <==> data == StringData("skipWaiting")
    ensures data != StringData("downloadOffline") ==> r.content == content
    ensures forall u :: u in content ==> u in r.content
    ensures r.content.Keys <= content.Keys + RequestedUrls(origin, order)
    ensures forall u :: u in r.content ==>
              if u in content && u !in RequestedUrls(origin, order) then r.content[u] == content[u]
              else (u in content && r.content[u] == content[u]) || (net(u) == Fetched(r.content[u]) && r.content[u].Ok())
    ensures data == StringData("downloadOffline")
            && (exists k :: k in order && k !in PresentKeys(origin, content) && !net(ResolveUrl(origin, k)).FetchedOk())
            ==> r.content == content
    ensures data == StringData("downloadOffline") ==>
              r.content == content || forall k :: k in order && WellFormedKey(k) ==> k in PresentKeys(origin, r.content)
    ensures data == StringData("downloadOffline")
            && (forall k :: k in order && k !in PresentKeys(origin, content) ==> net(ResolveUrl(origin, k)).FetchedOk())
            ==> forall k :: k in order && WellFormedKey(k) ==> k in PresentKeys(origin, r.content)
  {
    if data == StringData("skipWaiting") then MessageEffect(content, true)
    else if data == StringData("downloadOffline") then
      match DownloadOffline(origin, order, content, net)
      case Some(filled) => MessageEffect(filled, false)
      case None => MessageEffect(content, false)
    else MessageEffect(content, false)
  }

  /** Pending keeps the order of its input: it distributes over
      concatenation. */
  lemma {:induction false} PendingDistributes(a: seq<Key>, b: seq<Key>, present: set<Key>)
    ensures Pending(a + b, present) == Pending(a, present) + Pending(b, present)
    decreases |a|
  {
    if |a| == 0 {
      assert a + b == b;
    } else {
      assert (a + b)[1..] == a[1..] + b;
      PendingDistributes(a[1..], b, present);
    }
  }

  /** With the manifest's own key order, the keys requested are exactly the
      listed keys the content cache does not hold yet, each once. */
  lemma {:induction false} PendingIsMissingKeys(order: seq<Key>, resources: Manifest, present: set<Key>)
    requires Enumerates(order, resources)
    ensures forall k :: k in Pending(order, present) <==> k in resources && k !in present
    ensures Distinct(Pending(order, present))
  {
    NoDuplicatesKept(order, present);
  }

  /** Filtering a key order without repeats gives a list without repeats. */
  lemma {:induction false} NoDuplicatesKept(order: seq<Key>, present: set<Key>)
    requires Distinct(order)
    ensures Distinct(Pending(order, present))
    decreases |order|
  {
    if |order| > 0 && order[0] !in present {
      var rest := Pending(order[1..], present);
      NoDuplicatesKept(order[1..], present);
      assert Distinct(rest);
      var r := [order[0]] + rest;
      assert Pending(order, present) == r;
      forall i, j | 0 <= i < j < |r|
        ensures r[i] != r[j]
      {
        assert r[j] == rest[j - 1] && rest[j - 1] in order[1..];
        if i == 0 {
          assert order[0] !in order[1..] by {
            forall m | 0 <= m < |order[1..]|
              ensures order[1..][m] != order[0]
            {
              assert order[1..][m] == order[m + 1];
            }
          }
        } else {
          assert r[i] == rest[i - 1];
        }
      }
    } else if |order| > 0 {
      NoDuplicatesKept(order[1..], present);
      assert Pending(order, present) == Pending(order[1..], present);
    }
  }

  /** After a successful `downloadOffline` every listed key is present, so
      the application is available offline. */
  lemma DownloadOfflineCompletes(origin: Url, order: seq<Key>, resources: Manifest, content: Cache, net: Network)
    requires Enumerates(order, resources)
    requires forall k :: k in resources ==> WellFormedKey(k)
    requires DownloadOffline(origin, order, content, net).Some?
    ensures forall k :: k in resources ==> k in PresentKeys(origin, DownloadOffline(origin, order, content, net).value)
  {
  }

  /** A second `downloadOffline` after a successful one requests nothing and
      changes nothing, whatever the network does. */
  lemma DownloadOfflineIdempotent(origin: Url, order: seq<Key>, resources: Manifest, content: Cache, net1: Network, net2: Network)
    requires Enumerates(order, resources)
    requires forall k :: k in resources ==> WellFormedKey(k)
    requires DownloadOffline(origin, order, content, net1).Some?
    ensures var filled := DownloadOffline(origin, order, content, net1).value;
            Pending(order, PresentKeys(origin, filled)) == []
            && DownloadOffline(origin, order, filled, net2) == Some(filled)
  {
    var filled := DownloadOffline(origin, order, content, net1).value;
    DownloadOfflineCompletes(origin, order, resources, content, net1);
    NothingPendingWhenAllPresent(order, PresentKeys(origin, filled));
    NothingToDownload(origin, order, filled, net2);
  }

  /** With nothing pending, `downloadOffline` hands `addAll` an empty list,
      which succeeds and changes nothing. */
  lemma NothingToDownload(origin: Url, order: seq<Key>, content: Cache, net: Network)
    requires Pending(order, PresentKeys(origin, content)) == []
    ensures DownloadOffline(origin, order, content, net) == Some(content)
  {
    var r := DownloadOffline(origin, order, content, net);
    assert RequestedUrls(origin, []) == {};
    assert r.Some?;
    assert r.value.Keys == content.Keys;
    assert forall u :: u in r.value ==> r.value[u] == content[u];
    assert r.value == content;
  }

  /** When every key of the order is present, nothing is requested. */
  lemma {:induction false} NothingPendingWhenAllPresent(order: seq<Key>, present: set<Key>)
    requires forall k :: k in order ==> k in present
    ensures Pending(order, present) == []
    decreases |order|
  {
    if |order| > 0 {
      assert order[0] in order;
      NothingPendingWhenAllPresent(order[1..], present);
    }
  }
}

=== FILE: model.dfy ===
/** The state the worker acts on: URLs, resource keys, responses and the three
    named caches of the Cache API, held as immutable values. */
module Model {

  /** An absolute request URL; a cache entry is addressed by it. */
  type Url = string

  /** A resource key of the manifest, such as "main.dart.js" or "/". */
  type Key = string

  /** An opaque content hash. */
  type Fingerprint = string

  /** `RESOURCES`: resource key to fingerprint. */
  type Manifest = map<Key, Fingerprint>

  datatype Option<T> = None | Some(value: T)

  /** A response; `body` stands for the opaque payload. */
  datatype Response = Response(status: int, body: string)
  {
    /** `Response.ok`: the status lies in 200..299. */
    predicate Ok()
    {
      200 <= status <= 299
    }
  }

  /** One named cache: request URL to stored response. */
  type Cache = map<Url, Response>

  /** The three caches the worker keeps: `flutter-app-cache` (content),
      `flutter-temp-cache` (temp) and `flutter-app-manifest`, whose single
      entry `'manifest'` is the last manifest an activation saved. A deleted
      cache is the empty map: every use opens, and so recreates, it first. */
  datatype Storage = Storage(content: Cache, temp: Cache, saved: Option<Manifest>)

  /** All three caches deleted. */
  const Purged := Storage(map[], map[], None)

  /** What `fetch(url)` settles to: a response (of any status) or a rejection. */
  datatype FetchOutcome = Fetched(response: Response) | NetworkError(reason: string)
  {
    /** `fetch` resolved with an ok response. */
    predicate FetchedOk()
    {
      Fetched? && response.Ok()
    }
  }

  /** The network, as an oracle: what fetching each URL would settle to. */
  type Network = Url -> FetchOutcome
}

=== FILE: property_lookups.dfy ===
/** The lookups of the fetch handler (line 167), of `activate` (line 125)
    and of `downloadOffline` (line 215) as JavaScript evaluates them:
    `RESOURCES[key]`, `oldManifest[key]` and `currentContent[resourceKey]` are
    property reads on plain objects, which also find the properties every
    object inherits from `Object.prototype`. The rest of the model reads all
    three lookups as key membership, which is what the comments describe. */
module PropertyLookups {
  import opened Model
  import opened Keys
  import opened Router
  import opened Activation
  import opened Messages

  /** The properties a plain object inherits from `Object.prototype`. */
  const PrototypeNames: set<string> := {
    "constructor", "hasOwnProperty", "isPrototypeOf", "propertyIsEnumerable",
    "toLocaleString", "toString", "valueOf", "__proto__", "__defineGetter__",
    "__defineSetter__", "__lookupGetter__", "__lookupSetter__"
  }

  /** The value of a property read: missing, an own string, or an inherited
      built-in, which is the same object whichever plain object it is read
      from. */
  datatype JsValue = Undefined | JsTrue | JsString(s: string) | Inherited(name: string)

  /** `m[k]` on a plain object built from `m`. */
  function Lookup(m: map<string, string>, k: string): (v: JsValue)
  {
    if k in m then JsString(m[k])
    else if k in PrototypeNames then Inherited(k)
    else Undefined
  }

  /** JavaScript truthiness of a looked-up value. */
  predicate Truthy(v: JsValue)
  {
    match v
    case Undefined => false
    case JsTrue => true
    case JsString(s) => s != ""
    case Inherited(_) => true
  }

  /** Lines 153-173 as written: declined when `!RESOURCES[key]`. */
  function ChooseAsWritten(origin: Url, resources: Manifest, req: Request): (r: Route)
  {
    var key := RequestKey(origin, req.url);
    if req.verb != "GET" || !Truthy(Lookup(resources, key)) then Decline
    else if key == RootKey then OnlineFirstRoute
    else CacheFirstRoute
  }

  /** Line 125 as written: an entry is kept unless
      `!RESOURCES[key] || RESOURCES[key] != oldManifest[key]`. */
  predicate RetainedAsWritten(origin: Url, resources: Manifest, previous: Manifest, url: Url)
  {
    var k := EntryKey(origin, url);
    Truthy(Lookup(resources, k)) && Lookup(resources, k) == Lookup(previous, k)
  }

  /** `currentContent[k]`, where `currentContent` is a plain object holding
      `true` under each present key. */
  function FlagLookup(present: set<Key>, k: Key): (v: JsValue)
  {
    if k in present then JsTrue
    else if k in PrototypeNames then Inherited(k)
    else Undefined
  }

  /** Lines 214-218 as written: a key is requested when
      `!currentContent[resourceKey]`. */
  function PendingAsWritten(order: seq<Key>, present: set<Key>): (r: seq<Key>)
    ensures |r| <= |order|
  {
    if |order| == 0 then []
    else if Truthy(FlagLookup(present, order[0])) then PendingAsWritten(order[1..], present)
    else [order[0]] + PendingAsWritten(order[1..], present)
  }

  /** `origin/constructor` has the key `constructor` under both
      normalisations. */
  lemma ConstructorKey(origin: Url)
    ensures RequestKey(origin, origin + "/constructor") == "constructor"
    ensures EntryKey(origin, origin + "/constructor") == "constructor"
  {
    var p := "constructor";
    assert origin + "/" + p == origin + "/constructor";
    NoMarkerWithoutQuestionMark(p);
    VersionQueryIgnored(origin, p, "");
    assert PathOf(origin, origin + "/constructor") == p;
  }

  /** As written, a GET of `origin/constructor` is intercepted and served
      cache first although no manifest lists it; read as membership, it is
      declined. */
  lemma PrototypeKeyIntercepted(origin: Url, resources: Manifest)
    requires "constructor" !in resources
    ensures ChooseAsWritten(origin, resources, Request("GET", origin + "/constructor")) == CacheFirstRoute
    ensures Choose(origin, resources, Request("GET", origin + "/constructor")) == Decline
  {
    ConstructorKey(origin);
  }

  /** As written, an entry cached under `origin/constructor` survives every
      upgrade, although no manifest lists it; read as membership, it is
      evicted. */
  lemma PrototypeKeySurvivesUpgrade(origin: Url, resources: Manifest, previous: Manifest)
    requires "constructor" !in resources && "constructor" !in previous
    ensures RetainedAsWritten(origin, resources, previous, origin + "/constructor")
    ensures !Retained(origin, resources, previous, origin + "/constructor")
  {
    ConstructorKey(origin);
  }

  /** Off the inherited names, and with non-empty fingerprints, the route as
      written is the route by membership. */
  lemma ChooseAgreesOffPrototype(origin: Url, resources: Manifest, req: Request)
    requires forall k :: k in resources ==> resources[k] != ""
    requires RequestKey(origin, req.url) !in PrototypeNames
    ensures ChooseAsWritten(origin, resources, req) == Choose(origin, resources, req)
  {
  }

  /** Off the inherited names, and with non-empty fingerprints, retention as
      written is retention by membership. */
  lemma RetainedAgreesOffPrototype(origin: Url, resources: Manifest, previous: Manifest, url: Url)
    requires forall k :: k in resources ==> resources[k] != ""
    requires EntryKey(origin, url) !in PrototypeNames
    ensures RetainedAsWritten(origin, resources, previous, url) == Retained(origin, resources, previous, url)
  {
  }

  /** As written, a listed key named after an inherited property is never
      requested by `downloadOffline`, though the content cache lacks it; read
      as membership, it is requested. */
  lemma {:induction false} PrototypeKeyNeverRequested(order: seq<Key>, present: set<Key>)
    requires "constructor" in order && "constructor" !in present
    ensures "constructor" !in PendingAsWritten(order, present)
    ensures "constructor" in Pending(order, present)
    decreases |order|
  {
    if order[0] != "constructor" {
      assert "constructor" in order[1..];
      PrototypeKeyNeverRequested(order[1..], present);
    } else if "constructor" in order[1..] {
      PrototypeKeyNeverRequested(order[1..], present);
    } else {
      PendingAsWrittenWithout(order[1..], present, "constructor");
    }
  }

  /** A key absent from the order is never requested. */
  lemma {:induction false} PendingAsWrittenWithout(order: seq<Key>, present: set<Key>, k: Key)
    requires k !in order
    ensures k !in PendingAsWritten(order, present)
    decreases |order|
  {
    if |order| > 0 {
      assert k !in order[1..];
      PendingAsWrittenWithout(order[1..], present, k);
    }
  }

  /** Off the inherited names, the keys requested as written are the keys
      requested by membership, in the same order. */
  lemma {:induction false} PendingAgreesOffPrototype(order: seq<Key>, present: set<Key>)
    requires forall i :: 0 <= i < |order| ==> order[i] !in PrototypeNames
    ensures PendingAsWritten(order, present) == Pending(order, present)
    decreases |order|
  {
    if |order| > 0 {
      assert order[0] !in PrototypeNames;
      PendingAgreesOffPrototype(order[1..], present);
    }
  }
}

=== FILE: provisioning.dfy ===
/** The `install` handler: the temp cache receives the application shell. */
module Provisioning {
  import opened Model
  import opened Keys
  import opened CacheOps

  /** The URLs the shell keys are requested under. */
  function ShellUrls(origin: Url, core: seq<Key>): (urls: seq<Url>)
    ensures |urls| == |core|
    ensures forall i :: 0 <= i < |core| ==> urls[i] == ResolveUrl(origin, core[i])
  {
    seq(|core|, i requires 0 <= i < |core| => ResolveUrl(origin, core[i]))
  }

  /** `caches.open(TEMP).then(cache => cache.addAll(CORE...))`: on success
      the new temp cache; None when the install fails, leaving temp as it was.
      The worker is then discarded and never activates. */
  function Install(origin: Url, core: seq<Key>, temp: Cache, net: Network): (r: Option<Cache>)
    ensures r.Some? <==> forall k :: k in core ==> net(ResolveUrl(origin, k)).FetchedOk()
    ensures r.Some? ==> r.value.Keys == temp.Keys + set k | k in core :: ResolveUrl(origin, k)
    ensures r.Some? ==> forall k :: k in core ==> r.value[ResolveUrl(origin, k)] == net(ResolveUrl(origin, k)).response
    ensures r.Some? ==> forall u :: u in temp && u !in (set k | k in core :: ResolveUrl(origin, k)) ==> r.value[u] == temp[u]
  {
    var urls := ShellUrls(origin, core);
    ShellUrlsListed(origin, core);
    ShellUrlsFetchedOk(origin, core, net);
    ShellUrlsContain(origin, core);
    AddAll(temp, urls, net)
  }

  /** The resolved shell lists exactly the shell URLs. */
  lemma ShellUrlsListed(origin: Url, core: seq<Key>)
    ensures Listed(ShellUrls(origin, core)) == set k | k in core :: ResolveUrl(origin, k)
  {
    var urls := ShellUrls(origin, core);
    forall k | k in core
      ensures ResolveUrl(origin, k) in Listed(urls)
    {
      var i :| 0 <= i < |core| && core[i] == k;
      assert urls[i] == ResolveUrl(origin, k);
    }
  }

  /** Each shell key's URL is among the resolved shell. */
  lemma ShellUrlsContain(origin: Url, core: seq<Key>)
    ensures forall k :: k in core ==> ResolveUrl(origin, k) in ShellUrls(origin, core)
  {
    var urls := ShellUrls(origin, core);
    forall k | k in core
      ensures ResolveUrl(origin, k) in urls
    {
      var i :| 0 <= i < |core| && core[i] == k;
      assert urls[i] == ResolveUrl(origin, k);
    }
  }

  /** The resolved shell fetches ok exactly when every shell key does. */
  lemma ShellUrlsFetchedOk(origin: Url, core: seq<Key>, net: Network)
    ensures (forall i :: 0 <= i < |core| ==> net(ShellUrls(origin, core)[i]).FetchedOk())
        <==> forall k :: k in core ==> net(ResolveUrl(origin, k)).FetchedOk()
  {
    var urls := ShellUrls(origin, core);
    if forall i :: 0 <= i < |urls| ==> net(urls[i]).FetchedOk() {
      forall k | k in core
        ensures net(ResolveUrl(origin, k)).FetchedOk()
      {
        var i :| 0 <= i < |core| && core[i] == k;
        assert urls[i] == ResolveUrl(origin, k);
      }
    }
  }

  /** Every URL the shell is stored under, from an empty temp cache, has an
      entry key that the manifest lists, provided the shell keys are listed
      and well formed. */
  lemma InstalledEntriesListed(origin: Url, core: seq<Key>, resources: Manifest, net: Network)
    requires forall k :: k in core ==> k in resources && WellFormedKey(k)
    requires Install(origin, core, map[], net).Some?
    ensures forall u :: u in Install(origin, core, map[], net).value ==> EntryKey(origin, u) in resources
  {
  }
}

=== FILE: router.dfy ===
/** The `fetch` handler: which requests the worker answers, and how. */
module Router {
  import opened Text
  import opened Model
  import opened Keys

  datatype Request = Request(verb: string, url: Url)

  /** How a request is handled. */
  datatype Route = Decline | OnlineFirstRoute | CacheFirstRoute

  /** What the page sees: the browser's own handling, a response, or the
      rejection of the network fetch. */
  datatype Reply = NotIntercepted | Served(response: Response) | Failed(reason: string)

  /** The reply, the content cache afterwards, and whether the network was
      asked. */
  datatype Handled = Handled(reply: Reply, content: Cache, usedNetwork: bool)

  /** Only GET requests whose key the manifest lists are answered; the root
      goes online first, everything else cache first. */
  function Choose(origin: Url, resources: Manifest, req: Request): (r: Route)
    ensures r == Decline <==> req.verb != "GET" || RequestKey(origin, req.url) !in resources
    ensures r == OnlineFirstRoute <==> req.verb == "GET" && RequestKey(origin, req.url) == RootKey && RootKey in resources
    ensures r == CacheFirstRoute ==> RequestKey(origin, req.url) != RootKey
  {
    var key := RequestKey(origin, req.url);
    if req.verb != "GET" || key !in resources then Decline
    else if key == RootKey then OnlineFirstRoute
    else CacheFirstRoute
  }

  /** Cache first: a stored entry is served without the network; otherwise the
      fetched response is served, and stored only when it is ok. */
  function CacheFirst(content: Cache, url: Url, net: Network): (h: Handled)
    ensures h.reply != NotIntercepted
    ensures h.usedNetwork <==> url !in content
    ensures !h.usedNetwork ==> h.reply == Served(content[url]) && h.content == content
    ensures h.usedNetwork && h.reply.Served? ==> net(url) == Fetched(h.reply.response)
    ensures h.reply.Failed? ==> url !in content && net(url) == NetworkError(h.reply.reason)
    ensures forall u :: u in content ==> u in h.content && h.content[u] == content[u]
    ensures h.content.Keys <= content.Keys + {url}
    ensures url !in content && url in h.content ==> h.content[url].Ok()
    ensures url !in content && net(url).FetchedOk() ==> url in h.content
    ensures url in h.content ==> h.reply == Served(h.content[url])
  {
    if url in content then Handled(Served(content[url]), content, false)
    else match net(url)
      case NetworkError(reason) => Handled(Failed(reason), content, true)
      case Fetched(response) =>
        Handled(Served(response), if response.Ok() then content[url := response] else content, true)
  }

  /** Online first: the fetched response is stored, whatever its status, and
      served; when the fetch rejects, a stored entry is served, and without
      one the rejection is passed on. */
  function OnlineFirst(content: Cache, url: Url, net: Network): (h: Handled)
    ensures h.reply != NotIntercepted && h.usedNetwork
    ensures net(url).Fetched? ==> h.reply == Served(net(url).response) && h.content == content[url := net(url).response]
    ensures net(url).NetworkError? ==> h.content == content
    ensures net(url).NetworkError? ==> (h.reply.Served? <==> url in content)
    ensures net(url).NetworkError? && h.reply.Served? ==> h.reply.response == content[url]
    ensures h.reply.Failed? ==> url !in content && net(url) == NetworkError(h.reply.reason)
  {
    match net(url)
    case Fetched(response) => Handled(Served(response), content[url := response], true)
    case NetworkError(reason) =>
      if url in content then Handled(Served(content[url]), content, true)
      else Handled(Failed(reason), content, true)
  }

  /** The handler: a declined request leaves the cache and the network alone;
      the listed root always asks the network, any other listed key only when
      its URL is not stored. */
  function HandleFetch(origin: Url, resources: Manifest, content: Cache, req: Request, net: Network): (h: Handled)
    ensures h.reply == NotIntercepted <==> req.verb != "GET" || RequestKey(origin, req.url) !in resources
    ensures h.reply == NotIntercepted ==> h.content == content && !h.usedNetwork
    ensures h.content.Keys <= content.Keys + {req.url}
    ensures h.reply != NotIntercepted && RequestKey(origin, req.url) == RootKey ==> h.usedNetwork
    ensures h.reply != NotIntercepted && RequestKey(origin, req.url) != RootKey ==> (h.usedNetwork <==> req.url !in content)
    ensures forall u :: u in content && u != req.url ==> u in h.content && h.content[u] == content[u]
    ensures h.reply != NotIntercepted && !h.usedNetwork ==> h.reply == Served(content[req.url]) && h.content == content
    ensures h.reply != NotIntercepted && h.usedNetwork && net(req.url).Fetched? ==> h.reply == Served(net(req.url).response)
    ensures h.reply.Failed? ==> req.url !in content && net(req.url) == NetworkError(h.reply.reason)
    ensures req.url in h.content && req.url !in content ==> net(req.url) == Fetched(h.content[req.url])
    ensures h.reply != NotIntercepted && RequestKey(origin, req.url) == RootKey && net(req.url).Fetched? ==>
              h.content == content[req.url := net(req.url).response]
    ensures h.reply != NotIntercepted && net(req.url).NetworkError? && req.url in content ==> h.reply == Served(content[req.url])
    ensures RequestKey(origin, req.url) != RootKey && req.url in h.content && req.url !in content ==> h.content[req.url].Ok()
  {
    match Choose(origin, resources, req)
    case Decline => Handled(NotIntercepted, content, false)
    case OnlineFirstRoute => OnlineFirst(content, req.url, net)
    case CacheFirstRoute => CacheFirst(content, req.url, net)
  }

  /** Cache-first requests for a stored URL never reach the network: the
      outcome is the same whatever the network would answer. */
  lemma StoredEntryServedOffline(origin: Url, resources: Manifest, content: Cache, req: Request, net1: Network, net2: Network)
    requires Choose(origin, resources, req) == CacheFirstRoute && req.url in content
    ensures HandleFetch(origin, resources, content, req, net1) == HandleFetch(origin, resources, content, req, net2)
    ensures HandleFetch(origin, resources, content, req, net1) == Handled(Served(content[req.url]), content, false)
  {
  }

  /** After a cache-first request fetched an ok response, repeating it is
      answered from the cache with that response, offline. */
  lemma RepeatServedFromCache(origin: Url, resources: Manifest, content: Cache, req: Request, net1: Network, net2: Network)
    requires Choose(origin, resources, req) == CacheFirstRoute && net1(req.url).FetchedOk()
    ensures var first := HandleFetch(origin, resources, content, req, net1);
            HandleFetch(origin, resources, first.content, req, net2) == Handled(first.reply, first.content, false)
  {
  }

  /** The bare origin, `origin/` and `origin/#...` all go online first when
      the manifest lists the root. */
  lemma RootRequestsGoOnlineFirst(origin: Url, resources: Manifest, fragment: string)
    requires RootKey in resources
    ensures Choose(origin, resources, Request("GET", origin)) == OnlineFirstRoute
    ensures Choose(origin, resources, Request("GET", origin + "/")) == OnlineFirstRoute
    ensures Choose(origin, resources, Request("GET", origin + "/#" + fragment)) == OnlineFirstRoute
  {
    RootAddresses(origin, fragment, "");
  }

  /** `origin/p?v=n` is routed like `origin/p`. */
  lemma VersionedRequestRoutedAlike(origin: Url, resources: Manifest, verb: string, p: string, n: string)
    requires !Contains(p, VersionMarker)
    ensures Choose(origin, resources, Request(verb, origin + "/" + p + VersionMarker + n))
         == Choose(origin, resources, Request(verb, origin + "/" + p))
  {
    VersionQueryIgnored(origin, p, n);
  }

  /** The cache is looked up by the full URL, not the key: a stored
      `origin/p` does not answer `origin/p?v=n`, which goes to the network. */
  lemma VersionedRequestMissesPlainEntry(origin: Url, resources: Manifest, content: Cache, p: string, n: string, net: Network)
    requires !Contains(p, VersionMarker) && p != "" && p[0] != '#' && p != RootKey
    requires p in resources
    requires origin + "/" + p in content && origin + "/" + p + VersionMarker + n !in content
    ensures HandleFetch(origin, resources, content, Request("GET", origin + "/" + p + VersionMarker + n), net).usedNetwork
  {
    VersionQueryIgnored(origin, p, n);
  }

  /** A fresh root document is what the offline fallback later serves. */
  lemma OnlineFirstFallsBackToLastFetch(content: Cache, url: Url, online: Network, offline: Network)
    requires online(url).Fetched? && offline(url).NetworkError?
    ensures var first := OnlineFirst(content, url, online);
            OnlineFirst(first.content, url, offline).reply == first.reply
  {
  }
}

=== FILE: text.dfy ===
/** String operations of the JavaScript standard library that the worker uses,
    stated over `seq<char>`. */
module Text {

  /** `pat` occurs in `s` starting at index `i`. */
  predicate OccursAt(s: string, pat: string, i: int)
  {
    0 <= i && i + |pat| <= |s| && s[i..i + |pat|] == pat
  }

  /** `pat` occurs somewhere in `s`. */
  ghost predicate Contains(s: string, pat: string)
  {
    exists i :: OccursAt(s, pat, i)
  }

  /** `s.indexOf(pat, from)`: the first index at or after `from` where `pat`
      occurs, or -1. */
  function IndexOfFrom(s: string, pat: string, from: nat): (r: int)
    requires from <= |s|
    ensures r == -1 || (from <= r && OccursAt(s, pat, r))
    ensures r == -1 ==> forall i :: from <= i ==> !OccursAt(s, pat, i)
    ensures r != -1 ==> forall i :: from <= i < r ==> !OccursAt(s, pat, i)
    decreases |s| - from
  {
    if OccursAt(s, pat, from) then from
    else if from == |s| then -1
    else IndexOfFrom(s, pat, from + 1)
  }

  /** `s.indexOf(pat)`. */
  function IndexOf(s: string, pat: string): (r: int)
    ensures r == -1 <==> !Contains(s, pat)
    ensures r != -1 ==> OccursAt(s, pat, r) && forall i :: 0 <= i < r ==> !OccursAt(s, pat, i)
  {
    IndexOfFrom(s, pat, 0)
  }

  /** `s.split(pat)[0]` for a non-empty `pat`: the part of `s` in front of the
      first occurrence of `pat`, or all of `s` when there is none. */
  function BeforeFirst(s: string, pat: string): (r: string)
    ensures r <= s
    ensures r == s || OccursAt(s, pat, |r|)
    ensures forall i :: 0 <= i < |r| ==> !OccursAt(s, pat, i)
  {
    var i := IndexOf(s, pat);
    if i == -1 then s else s[..i]
  }

  /** The three facts BeforeFirst promises pin its result down: no other
      prefix has them. */
  lemma BeforeFirstUnique(s: string, pat: string, p: string)
    requires p <= s
    requires p == s || OccursAt(s, pat, |p|)
    requires forall i :: 0 <= i < |p| ==> !OccursAt(s, pat, i)
    ensures p == BeforeFirst(s, pat)
  {
  }

  /** `s.substring(n)`: what follows the first `n` characters of `s`, or ""
      when `s` is not longer than `n`. */
  function Drop(s: string, n: nat): (r: string)
    ensures |r| == if n <= |s| then |s| - n else 0
    ensures s == s[..|s| - |r|] + r
  {
    if n <= |s| then s[n..] else ""
  }
}
